=== FILE: README.md ===
# summarizeBot core in Dafny

summarizeBot is a small web application. It accepts an uploaded document,
splits its text into overlapping token windows the summarization model can
take, summarizes each window, and then summarizes the joined partial
summaries into one final summary. This project models the three functions
of `app.py` that carry that logic:

- `allowed_file` (module `Uploads`) decides from a file name whether an
  upload is a PDF, DOCX or TXT file.
- `chunk_text` (module `Chunker`) cuts the token sequence of a text into
  windows. Window k starts at `k * (max_length - overlap)` and ends at
  `min(start + max_length - 10, len(tokens))`. A window longer than the
  model's 1024-token limit is skipped.
- `summarize_chunks` (module `Summarizer`) handles each chunk in turn:
  - It skips a chunk of more than 1014 tokens.
  - It decodes the chunk and skips it when the text has fewer than three
    words.
  - Otherwise it asks for a summary with `min_length = 50` and
    `max_length` equal to half the word count, kept within [100, 200]. A
    failing call only drops that chunk.
  - It joins the summaries with spaces and asks for a final summary with
    `min_length = 100` and `max_length` equal to half the word count,
    kept within [100, 400].
  - When that last call fails, the joined text is the result.

`Text` gives the meaning of the Python string built-ins these use:
`len(s.split())`, `" ".join` and `str.lower()`. `Wrappers` holds `Option`,
and `MinMax` Python's `min` and `max` on two integers.

Both loops are imperative methods, proved against specification
functions:
- `Chunker.ChunkText` returns `Chunks`, the length filter `Accepted`
  applied to the window list `Windows`.
- `Summarizer.SummarizeChunks` returns `FinalSummary`.

The lemmas next to each method state what the source promises about
those functions.

The tokenizer's `decode` and the summarization pipeline are parameters of
the summarizer. `decode` maps token identifiers to text. `summarize` maps a
`Request(text, maxLength, minLength)` to `Some(summary)`, or to `None`
when the call raises; the code's `try`/`except` turns a raise into exactly
that. Generation runs with `do_sample=False`, so the pipeline is a
function of its request. `chunk_text` is modelled on the token sequence
its first line produces.

Points where the code's behaviour is easy to misread, and which the model
follows as written:
- **Stride.** The code advances `start` by `max_length - overlap`, which
  is 824 with the defaults. It is not the window width minus the overlap,
  `(max_length - 10) - overlap`, which would be 814. So for a 1500-token
  input the second chunk is `[824, 1500)` (`Chunker.DefaultScenario`), not
  `[814, 1500)`. Consecutive windows overlap by `overlap - 10` tokens,
  which is 190.
- **Termination.** Nothing in the code rejects `overlap >= max_length`.
  The loop then ends only on an empty input, so it terminates exactly when
  `max_length > overlap` or the input is empty. `Chunker.ChunkText`
  requires exactly that condition.
- **Empty final input.** Nothing in the code skips the final call when no
  chunk yields a summary. `Summarizer.NothingToCombine` shows that the
  pipeline is then called on `""` with `max_length = min_length = 100`.

## Model

| member | source | states |
|---|---|---|
| Uploads.RSplitDot | app.py:22 | `rsplit('.', 1)` splits exactly when the name holds a dot; the parts rejoin to the name and the tail holds no dot |
| Uploads.RSplitDotUnique | app.py:22 | the tail after the last dot is the only dot-free tail: splitting `head + "." + tail` gives back `(head, tail)` |
| Uploads.AllowedFile | app.py:21-22 | an accepted name always holds a dot |
| Uploads.AllowedFileIff | app.py:21-22 | a name with a dot is accepted if and only if the lower-cased text after its last dot is `pdf`, `docx` or `txt` |
| Uploads.UpperCaseAccepted | app.py:21-22 | `x.PDF` is accepted: the extension's case is ignored |
| Uploads.LastExtensionAccepted | app.py:21-22 | `a.tar.txt` is accepted: only the last extension counts |
| Uploads.RejectedExamples | app.py:21-22 | `pdf` (no dot), `file.` (empty extension) and `notes.txt.exe` are refused |
| Text.IsSpace | app.py:64 | the whitespace `str.split()` splits on (CPython's `_PyUnicode_IsWhitespace`): among ASCII characters exactly space, `\t` to `\r` and the separators `\x1c` to `\x1f`; letters, digits and `.` are never whitespace |
| Text.WordCount | app.py:64 | the number of whitespace-separated words never exceeds the length of the text |
| Text.WordCountZero | app.py:64-65 | a text has no words if and only if it is all whitespace |
| Text.WordCountOneWord | app.py:64 | a non-empty run of non-whitespace characters is exactly one word, however long |
| Text.WordCountTrailingSpace | app.py:64 | whitespace at the end of a text adds no word |
| Text.WordCountAroundSpaces | app.py:64 | any non-empty run of whitespace separates like one space: the words of `a + ws + b` are those of `a` plus those of `b` |
| Text.WordCountAroundSpace | app.py:76-78 | a single space neither merges nor splits words: the words of `a + " " + b` are those of `a` plus those of `b` |
| Text.Join | app.py:76 | `" ".join` is as long as the parts plus one separator between each pair of neighbours |
| Text.WordCountJoin | app.py:76-78 | the word count of the joined summaries is the sum of their word counts |
| Text.AsciiLower | app.py:22 | `str.lower()` on ASCII letters: the length is kept, every upper-case letter becomes its lower-case letter, every other character is kept, and no upper-case ASCII letter remains |
| Chunker.PySlice | app.py:47 | Python slicing: inside the bounds it is the subsequence `s[lo..hi]`, an empty range gives `[]`, and the result is never longer than `s` |
| Chunker.Window | app.py:46-47 | the slice `tokens[start:min(start + max_length - 10, len(tokens))]`: never longer than the input, at most `max_length - 10` tokens from a non-negative start, and non-empty when it starts inside the input and `max_length > 10` |
| Chunker.WindowEnd | app.py:46 | the `end` of window k: never past the input, and either the input's end or `start + max_length - 10` |
| Chunker.WindowStart | app.py:44-52 | with `max_length > overlap` every start is non-negative |
| Chunker.WindowStartIsMultiple | app.py:44-52 | window k starts at `k * (max_length - overlap)` |
| Chunker.WindowStartGrows | app.py:52 | the starts increase by at least one per step |
| Chunker.StartsBeforeCount | app.py:45-52 | counting the starts from window j on: window j + k is counted if and only if it starts before the end |
| Chunker.NumWindows | app.py:45 | the number of passes of the `while` loop: none exactly when the input is empty |
| Chunker.WindowCount | app.py:45-52 | window k is visited if and only if its start lies before `len(tokens)` |
| Chunker.NumWindowsIsCeiling | app.py:44-52 | the loop makes `ceil(n / (max_length - overlap))` passes: `(K - 1) * stride < n <= K * stride`, and none for an empty input |
| Chunker.Windows | app.py:45-47 | the windows the loop slices, in order: none exactly for an empty input, each no longer than the input |
| Chunker.Accepted | app.py:48-51 | the length filter never lengthens the window list |
| Chunker.AcceptedMembers | app.py:48-51 | a window is kept if and only if it has at most 1024 tokens |
| Chunker.AcceptedStep | app.py:48-49 | one more window is appended exactly when it fits the model |
| Chunker.AcceptedAll | app.py:48-49 | when every window fits, every window is a chunk, in order |
| Chunker.AcceptedPrefix | app.py:45-49 | filtering the first m windows gives a prefix of the chunks |
| Chunker.Chunks | app.py:43-53 | the list `chunk_text` returns: at most one chunk per pass, none for an empty input, and every chunk within the model's 1024 tokens |
| Chunker.Collected | app.py:43-52 | the list `chunks` after k passes of the loop: at most one chunk per pass |
| Chunker.CollectedStep | app.py:46-49 | one pass appends the window it slices exactly when that window has at most 1024 tokens |
| Chunker.CollectedIsAccepted | app.py:45-52 | what the loop has collected after k passes is the filter of the first k windows |
| Chunker.CollectedAll | app.py:45-53 | after the last pass the collected list is the list `chunk_text` returns, every chunk within 1024 tokens |
| Chunker.ChunkText | app.py:41-53 | the loop returns the length-filtered windows; every chunk has at most 1024 tokens; an empty input gives no chunk |
| Chunker.WindowSlice | app.py:46-47 | a visited window is the slice `tokens[start:end]`, with its start inside the input, at most `max_length - 10` tokens, and non-empty when `max_length > 10` |
| Chunker.ChunksAreSlices | app.py:45-49 | every chunk is a contiguous slice `tokens[s:e]` with `e - s <= max_length - 10` and `e - s <= 1024`, and `s < e` when `max_length > 10` |
| Chunker.NoWindowRejected | app.py:46-49 | with `max_length <= 1034` no window is skipped, so there are exactly `NumWindows` chunks |
| Chunker.WindowsOverlap | app.py:46-52 | consecutive windows start `max_length - overlap` apart, and window k runs `overlap - 10` tokens (190 by default) into window k + 1 unless the input ends first; a later window never ends earlier |
| Chunker.WindowAround | app.py:52 | every position at or after a start lies in the stride of some start |
| Chunker.ChunksCover | app.py:45-52 | with `10 <= overlap` and no window skipped, every token lies in some chunk at its offset from that chunk's start |
| Chunker.LastWindowReachesEnd | app.py:45-46 | with `10 <= overlap` the last window ends at `len(tokens)` |
| Chunker.DefaultScenario | app.py:41-53 | 1500 tokens with the defaults give the chunks `[0, 1014)` and `[824, 1500)` |
| Chunker.ShortInputTwoChunks | app.py:45-52 | 900 tokens with the defaults give `[0, 900)` and again `[824, 900)`, which the first chunk already holds |
| Chunker.StopIndex | app.py:45-52 | the index after the first window that reaches the end lies between the current index and the number of windows |
| Chunker.StopIndexStops | app.py:45-52 | that index is where a loop stopping at the end of the input stops: every earlier window ends before the end |
| Chunker.StopPrefix | app.py:45-49 | the chunks up to that stop are a prefix of the chunks `chunk_text` returns |
| Chunker.StopShort | app.py:45-49 | for a non-empty input of at most `max_length - 10` and at most 1024 tokens, the chunks up to the stop are the whole input as one chunk |
| Chunker.StopAtEnd | app.py:45-52 | without skipped windows, only the last chunk up to the stop can reach the end, and with `10 <= overlap` it does |
| Chunker.ChunksToEnd | app.py:43-52 | the value of `chunk_text` with the loop also stopping after the first window that reaches the end: at most one chunk per window, none for an empty input, each within 1024 tokens |
| Chunker.ChunksToEndStop | app.py:45-49 | the corrected chunks are the filter of the windows up to the first one that reaches the end |
| Chunker.ChunksToEndPrefix | app.py:45-49 | the corrected chunks are a prefix of the chunks `chunk_text` returns |
| Chunker.ChunksToEndShort | app.py:45-47 | a non-empty input of at most `max_length - 10` tokens and at most 1024 tokens gives the whole input as the single corrected chunk |
| Chunker.ChunksToEndAtEnd | app.py:45-52 | without skipped windows only the last corrected chunk reaches the end, and with `10 <= overlap` it does |
| Chunker.ChunkTextToEnd | app.py:41-53 | the loop that also stops after the first window reaching the end returns `ChunksToEnd` |
| Summarizer.HalfWithin | app.py:69 | `min(high, max(low, int(words / 2)))` lies in `[low, high]`; above the floor it is at most half the words, and below the cap at least half the words rounded down |
| Summarizer.HalfWithinUnique | app.py:69 | those bounds determine the value |
| Summarizer.HalfWithinMonotone | app.py:69 | more words never ask for a shorter summary |
| Summarizer.ChunkRequest | app.py:59-71 | a chunk is sent if and only if it has at most 1014 tokens and its decoded text at least 3 words; it is sent as its decoded text with `min_length = 50` and `max_length` half its words, kept within [100, 200] |
| Summarizer.ChunkSummary | app.py:59-75 | what one pass adds: nothing for a chunk of more than 1014 tokens or fewer than 3 words, and otherwise the pipeline's answer to that chunk's request, with a failing call adding nothing |
| Summarizer.Summaries | app.py:56-75 | no more summaries than chunks |
| Summarizer.SummariesStep | app.py:57-75 | each pass appends the chunk's summary, if it has one, to those before |
| Summarizer.SummariesAppend | app.py:57-75 | chunks are summarized independently and in order: the summaries of `cs + ds` are those of `cs` followed by those of `ds` |
| Summarizer.DroppedChunk | app.py:59-75 | a chunk that is skipped or whose call fails is left out without changing the other summaries |
| Summarizer.KeptChunk | app.py:68-72 | a chunk whose call succeeds contributes exactly its summary, in its place |
| Summarizer.AllSummarizedLength | app.py:57-72 | when every chunk yields a summary (it passes both filters and its call succeeds) there is one summary per chunk |
| Summarizer.SummaryAt | app.py:57-72 | when every chunk yields a summary (it passes both filters and its call succeeds), summary i is the summary of chunk i |
| Summarizer.SkippedChunkContributesNothing | app.py:59-67 | a chunk of more than 1014 tokens or fewer than 3 words contributes nothing |
| Summarizer.FinalRequest | app.py:76-81 | the final call's request: the joined text, `min_length = 100`, and `max_length` within [100, 400], at most half the words above the floor and at least half of them below the cap |
| Summarizer.FinalSummary | app.py:76-85 | the value `summarize_chunks` returns: the pipeline's summary of the joined chunk summaries, or, when that call fails, the joined text itself |
| Summarizer.SummarizeChunks | app.py:55-85 | the loop and the final call return `FinalSummary`: the pipeline's summary of the joined chunk summaries, or the joined text when that call fails |
| Summarizer.FinalRequestWords | app.py:76-81 | the final call gets the joined summaries, whose words are exactly theirs, with `min_length = 100` and `max_length` in [100, 400], at most half those words when above the floor of 100, and at least half of them when below the cap of 400 |
| Summarizer.FallbackKeepsSummaries | app.py:82-84 | when the final call fails the result is `" ".join(summaries)`, with exactly their words |
| Summarizer.NoSummaries | app.py:56-75 | if no chunk yields a summary the list stays empty |
| Summarizer.NothingToCombine | app.py:76-84 | when no chunk yields a summary, the pipeline is still called on `""` with `max_length = min_length = 100`, and the result is its output or `""` |
| Summarizer.ChunkerOutputFitsLimit | app.py:46-59 | chunks made with `max_length <= 1024` never exceed 1014 tokens, so the length check in `summarize_chunks` never drops them; the same holds for the corrected chunker |

## Left out

- The Flask routes (`index`, `upload_file`, `chat`, `login`, `logout`) and the `__main__` block are web plumbing, session state and file saving.
- `extract_text_from_file` reads files through PyPDF2, python-docx and `open`.
- Loading the model and the tokenizer, and choosing the torch device, are calls into foreign libraries.
- Tokenization itself is not modelled: `chunk_text` is modelled from the token sequence on. BART's tokenizer adds its start and end tokens to that sequence, so even an empty text gives two tokens.
- `decode` and the summarization pipeline are opaque parameters. Lengths are measured in tokens by the pipeline, and no property of the summaries' own lengths is stated.
- The `print` logging of skipped and failed chunks is output only.
- The model does not represent non-termination. With `max_length <= overlap` and a non-empty input the source never returns, and `Chunker.ChunkText` requires that this case does not arise.
- Uploads.AllowedFile: lower-cases ASCII letters only, where `str.lower()` maps all of Unicode. The only non-ASCII characters whose lower case holds ASCII letters are U+0130 (to `i̇`) and U+212A (to `k`), and neither letter occurs in `pdf`, `docx` or `txt`, so the answer is the same.
- Text.AsciiLower: maps only ASCII letters, where `str.lower()` also lower-cases other letters (`É` to `é`). The only non-ASCII characters whose lower case holds ASCII letters are U+0130 (to `i̇`) and U+212A (to `k`), and neither letter occurs in `pdf`, `docx` or `txt`, so `Uploads.AllowedFile` decides the same.
- Summarizer.HalfWithin: `int(words / 2)` divides in floating point, where the model divides integers. The two agree up to 2^53 words, and above that both lie far beyond the caps of 200 and 400, so the clamped `max_length` is the same for every word count.
- `decode` raising (it sits outside the `try`) would abort the whole call; the model takes `decode` to be total.

## Findings

| source | as written | input that shows it | evidently intended | confidence | as-written member | corrected member |
|---|---|---|---|---|---|---|
| app.py:45-52 | the loop keeps visiting starts until one passes the end, so a window that starts inside the previous window, after that window already reached the end, is still emitted | 900 tokens with the defaults give `[0, 900)` and `[824, 900)`; the second lies inside the first, and its text is summarized twice | stop after the first window that reaches the end of the input, so an input of at most 1014 tokens is a single chunk | medium; not executed | Chunker.ShortInputTwoChunks | Chunker.ChunkTextToEnd |

=== FILE: chunker.dfy ===
/** `chunk_text`: the sliding-window splitter over a token sequence. Window
    k starts at k * (maxLength - overlap) and is cut to `maxLength - 10`
    tokens and to the end of the input; a window longer than the model's
    1024-token limit is not kept. Tokenizing the text happens before this
    module: it works on the token identifiers. */
module Chunker {
  import opened MinMax

  /** The model's input limit: a longer window is skipped. */
  const ModelLimit := 1024
  /** Tokens each window leaves free below `maxLength`. */
  const Margin := 10


  /** Python's `s[lo:hi]` with step 1: a negative bound counts from the end,
      bounds are clipped to the sequence, and an empty range gives []. */
  function PySlice<T>(s: seq<T>, lo: int, hi: int): (r: seq<T>)
    ensures |r| <= |s|
    ensures 0 <= lo <= hi <= |s| ==> r == s[lo..hi]
    ensures 0 <= hi <= lo ==> r == []
  {
    var i := if lo < 0 then Max(0, lo + |s|) else Min(lo, |s|);
    var j := if hi < 0 then Max(0, hi + |s|) else Min(hi, |s|);
    if i < j then s[i..j] else []
  }

  /** Where window k begins: the loop's `start` after k advances of
      `maxLength - overlap`. */
  function WindowStart(k: nat, maxLength: int, overlap: int): (s: int)
    ensures maxLength > overlap ==> s >= 0
  {
    if k == 0 then 0 else WindowStart(k - 1, maxLength, overlap) + (maxLength - overlap)
  }

  /** Where window k ends: `min(start + maxLength - 10, len(tokens))`. */
  function WindowEnd(tokens: seq<int>, k: nat, maxLength: int, overlap: int): (e: int)
    ensures e <= |tokens|
    ensures e <= WindowStart(k, maxLength, overlap) + maxLength - Margin
    ensures e == |tokens| || e == WindowStart(k, maxLength, overlap) + maxLength - Margin
  {
    Min(WindowStart(k, maxLength, overlap) + maxLength - Margin, |tokens|)
  }

  /** The starts are 0, stride, 2 * stride, ... */
  lemma {:induction false} WindowStartIsMultiple(k: nat, maxLength: int, overlap: int)
    ensures WindowStart(k, maxLength, overlap) == k * (maxLength - overlap)
  {
    if k > 0 {
      WindowStartIsMultiple(k - 1, maxLength, overlap);
      assert k * (maxLength - overlap) == (k - 1) * (maxLength - overlap) + (maxLength - overlap);
    }
  }

  /** The starts only grow. */
  lemma {:induction false} WindowStartGrows(j: nat, k: nat, maxLength: int, overlap: int)
    requires maxLength > overlap
    ensures WindowStart(j, maxLength, overlap) + k <= WindowStart(j + k, maxLength, overlap)
  {
    if k > 0 {
      WindowStartGrows(j, k - 1, maxLength, overlap);
    }
  }

  /** How many of the starts `start`, `start + stride`, ... lie before `n`. */
  function StartsBefore(n: nat, start: int, stride: int): nat
    requires start >= n || stride > 0
    decreases n - start
  {
    if start >= n then 0 else 1 + StartsBefore(n, start + stride, stride)
  }

  /** The number of windows the loop visits on `n` tokens. */
  function NumWindows(n: nat, stride: int): (count: nat)
    requires n == 0 || stride > 0
    ensures count == 0 <==> n == 0
  {
    StartsBefore(n, 0, stride)
  }

  /** Window j + k is visited exactly when its start lies inside the input. */
  lemma {:induction false} StartsBeforeCount(n: nat, maxLength: int, overlap: int, j: nat, k: nat)
    requires maxLength > overlap
    ensures k < StartsBefore(n, WindowStart(j, maxLength, overlap), maxLength - overlap)
        <==> WindowStart(j + k, maxLength, overlap) < n
    decreases k
  {
    if WindowStart(j, maxLength, overlap) >= n {
      WindowStartGrows(j, k, maxLength, overlap);
    } else if k > 0 {
      StartsBeforeCount(n, maxLength, overlap, j + 1, k - 1);
    }
  }

  /** Window k is visited exactly when its start lies inside the input. */
  lemma WindowCount(n: nat, maxLength: int, overlap: int, k: nat)
    requires maxLength > overlap
    ensures k < NumWindows(n, maxLength - overlap) <==> WindowStart(k, maxLength, overlap) < n
  {
    StartsBeforeCount(n, maxLength, overlap, 0, k);
  }

  /** The loop runs ceil(n / stride) times: K windows with
      (K - 1) * stride < n <= K * stride. */
  lemma NumWindowsIsCeiling(n: nat, maxLength: int, overlap: int)
    requires maxLength > overlap
    ensures var count := NumWindows(n, maxLength - overlap);
      && (n == 0 ==> count == 0)
      && (n > 0 ==> count > 0 && (count - 1) * (maxLength - overlap) < n <= count * (maxLength - overlap))
  {
    var count := NumWindows(n, maxLength - overlap);
    WindowCount(n, maxLength, overlap, count);
    WindowStartIsMultiple(count, maxLength, overlap);
    if n > 0 {
      WindowCount(n, maxLength, overlap, 0);
      WindowCount(n, maxLength, overlap, count - 1);
      WindowStartIsMultiple(count - 1, maxLength, overlap);
    }
  }

  /** The slice the source takes at `start`: `tokens[start:end]` with
      `end = min(start + maxLength - 10, len(tokens))`. */
  function Window(tokens: seq<int>, start: int, maxLength: int): (w: seq<int>)
    ensures |w| <= |tokens|
    ensures 0 <= start && maxLength >= Margin ==> |w| <= maxLength - Margin
    ensures 0 <= start < |tokens| && maxLength > Margin ==> w != []
  {
    PySlice(tokens, start, Min(start + maxLength - Margin, |tokens|))
  }

  /** Every window the loop visits, before the length filter, in order. */
  function Windows(tokens: seq<int>, maxLength: int, overlap: int): (ws: seq<seq<int>>)
    requires maxLength > overlap || |tokens| == 0
    ensures |ws| == 0 <==> |tokens| == 0
    ensures forall k :: 0 <= k < |ws| ==> |ws[k]| <= |tokens|
  {
    seq(NumWindows(|tokens|, maxLength - overlap),
        k requires 0 <= k => Window(tokens, WindowStart(k, maxLength, overlap), maxLength))
  }

  /** The windows of at most `ModelLimit` tokens, in their order. */
  function Accepted(ws: seq<seq<int>>): (r: seq<seq<int>>)
    ensures |r| <= |ws|
  {
    if ws == [] then []
    else
      var last := ws[|ws| - 1];
      Accepted(ws[..|ws| - 1]) + (if |last| <= ModelLimit then [last] else [])
  }

  /** The filter keeps exactly the windows within the model's limit. */
  lemma {:induction false} AcceptedMembers(ws: seq<seq<int>>)
    ensures forall w :: w in Accepted(ws) <==> w in ws && |w| <= ModelLimit
  {
    if ws != [] {
      AcceptedMembers(ws[..|ws| - 1]);
      assert ws == ws[..|ws| - 1] + [ws[|ws| - 1]];
    }
  }

  /** Visiting one more window appends it exactly when it is short enough. */
  lemma AcceptedStep(ws: seq<seq<int>>, k: nat)
    requires k < |ws|
    ensures Accepted(ws[..k + 1]) == Accepted(ws[..k]) + (if |ws[k]| <= ModelLimit then [ws[k]] else [])
  {
    assert ws[..k + 1][..k] == ws[..k];
  }

  /** When every window is kept the filter is the identity. */
  lemma {:induction false} AcceptedAll(ws: seq<seq<int>>)
    requires forall i :: 0 <= i < |ws| ==> |ws[i]| <= ModelLimit
    ensures Accepted(ws) == ws
  {
    if ws != [] {
      AcceptedAll(ws[..|ws| - 1]);
    }
  }

  /** The filter applied to a prefix of the windows gives a prefix of the
      chunks. */
  lemma {:induction false} AcceptedPrefix(ws: seq<seq<int>>, m: nat)
    requires m <= |ws|
    ensures Accepted(ws[..m]) <= Accepted(ws)
  {
    if m < |ws| {
      assert ws[..m] == ws[..|ws| - 1][..m];
      AcceptedPrefix(ws[..|ws| - 1], m);
    } else {
      assert ws[..m] == ws;
    }
  }

  /** What `chunk_text` returns for a token sequence. */
  function Chunks(tokens: seq<int>, maxLength: int, overlap: int): (r: seq<seq<int>>)
    requires maxLength > overlap || |tokens| == 0
    ensures |r| <= NumWindows(|tokens|, maxLength - overlap)
    ensures tokens == [] ==> r == []
    ensures forall c :: c in r ==> |c| <= ModelLimit
  {
    AcceptedMembers(Windows(tokens, maxLength, overlap));
    Accepted(Windows(tokens, maxLength, overlap))
  }

  /** The chunks the loop has collected after visiting windows 0 .. k-1:
      each visit appends its window when it fits the model. This is the
      value `Accepted(Windows(..)[..k])` (`CollectedIsAccepted`), stated pass
      by pass as the loop builds it, so that the loop invariants need no
      slice of the window list, which is much cheaper to verify. */
  function Collected(tokens: seq<int>, maxLength: int, overlap: int, k: nat): (r: seq<seq<int>>)
    ensures |r| <= k
  {
    if k == 0 then []
    else
      var j: nat := k - 1;
      var window := Window(tokens, WindowStart(j, maxLength, overlap), maxLength);
      Collected(tokens, maxLength, overlap, j) + (if |window| <= ModelLimit then [window] else [])
  }

  /** One pass of the loop appends window k when it fits the model. */
  lemma CollectedStep(tokens: seq<int>, maxLength: int, overlap: int, k: nat)
    ensures var window := Window(tokens, WindowStart(k, maxLength, overlap), maxLength);
      Collected(tokens, maxLength, overlap, k + 1)
        == Collected(tokens, maxLength, overlap, k) + (if |window| <= ModelLimit then [window] else [])
  {
  }

  /** What the loop collects from the first k windows is the filter of
      those windows. */
  lemma {:induction false} CollectedIsAccepted(tokens: seq<int>, maxLength: int, overlap: int, k: nat)
    requires maxLength > overlap
    requires k <= NumWindows(|tokens|, maxLength - overlap)
    ensures Collected(tokens, maxLength, overlap, k) == Accepted(Windows(tokens, maxLength, overlap)[..k])
  {
    if k > 0 {
      var j: nat := k - 1;
      var windows := Windows(tokens, maxLength, overlap);
      var window := Window(tokens, WindowStart(j, maxLength, overlap), maxLength);
      var step := if |window| <= ModelLimit then [window] else [];
      assert Collected(tokens, maxLength, overlap, k) == Collected(tokens, maxLength, overlap, j) + step by {
        CollectedStep(tokens, maxLength, overlap, j);
      }
      assert window == windows[j];
      assert Collected(tokens, maxLength, overlap, j) == Accepted(windows[..j]) by {
        CollectedIsAccepted(tokens, maxLength, overlap, j);
      }
      assert Accepted(windows[..k]) == Accepted(windows[..j]) + step by {
        AcceptedStep(windows, j);
        assert windows[..j + 1] == windows[..k];
      }
    }
  }

  /** Once every window is visited, the loop holds the chunks, and each of
      them fits the model. */
  lemma CollectedAll(tokens: seq<int>, maxLength: int, overlap: int)
    requires maxLength > overlap || |tokens| == 0
    ensures var chunks := Collected(tokens, maxLength, overlap, NumWindows(|tokens|, maxLength - overlap));
      && chunks == Chunks(tokens, maxLength, overlap)
      && forall c :: c in chunks ==> |c| <= ModelLimit
  {
    var windows := Windows(tokens, maxLength, overlap);
    var k := NumWindows(|tokens|, maxLength - overlap);
    assert Collected(tokens, maxLength, overlap, k) == Accepted(windows) by {
      if |tokens| > 0 {
        CollectedIsAccepted(tokens, maxLength, overlap, k);
      }
      assert windows[..k] == windows;
    }
    AcceptedMembers(windows);
  }

  /** `chunk_text(text, max_length, overlap)` on the tokens of `text`. The
      loop advances by `maxLength - overlap`, so it stops only when that is
      positive or the input is empty. */
  method ChunkText(tokens: seq<int>, maxLength: int, overlap: int) returns (chunks: seq<seq<int>>)
    requires maxLength > overlap || |tokens| == 0
    ensures chunks == Chunks(tokens, maxLength, overlap)
    ensures forall c :: c in chunks ==> |c| <= ModelLimit
    ensures |tokens| == 0 ==> chunks == []
  {
    ghost var k: nat := 0;
    chunks := [];
    var start := 0;
    while start < |tokens|
      invariant start == WindowStart(k, maxLength, overlap)
      invariant k <= NumWindows(|tokens|, maxLength - overlap)
      invariant chunks == Collected(tokens, maxLength, overlap, k)
      decreases |tokens| - start
    {
      var end := Min(start + maxLength - Margin, |tokens|);
      var chunk := PySlice(tokens, start, end);
      assert k < NumWindows(|tokens|, maxLength - overlap) by {
        WindowCount(|tokens|, maxLength, overlap, k);
      }
      ghost var next := Collected(tokens, maxLength, overlap, k + 1);
      assert next == chunks + (if |chunk| <= ModelLimit then [chunk] else []) by {
        CollectedStep(tokens, maxLength, overlap, k);
        assert chunk == Window(tokens, start, maxLength);
      }
      if |chunk| <= ModelLimit {
        chunks := chunks + [chunk];
      }
      assert chunks == next;
      start := start + maxLength - overlap;
      k := k + 1;
    }
    assert k == NumWindows(|tokens|, maxLength - overlap) by {
      if |tokens| > 0 {
        WindowCount(|tokens|, maxLength, overlap, k);
      }
    }
    CollectedAll(tokens, maxLength, overlap);
  }

  /** Window k is the contiguous slice from its start, which lies inside
      the input, to its end; it spans at most `maxLength - 10` tokens and
      is non-empty when that is positive. */
  lemma WindowSlice(tokens: seq<int>, maxLength: int, overlap: int, k: nat)
    requires Margin <= maxLength && overlap < maxLength
    requires k < NumWindows(|tokens|, maxLength - overlap)
    ensures 0 <= WindowStart(k, maxLength, overlap) < |tokens|
    ensures WindowStart(k, maxLength, overlap) <= WindowEnd(tokens, k, maxLength, overlap) <= |tokens|
    ensures WindowEnd(tokens, k, maxLength, overlap) - WindowStart(k, maxLength, overlap) <= maxLength - Margin
    ensures maxLength > Margin ==> WindowStart(k, maxLength, overlap) < WindowEnd(tokens, k, maxLength, overlap)
    ensures Windows(tokens, maxLength, overlap)[k]
         == tokens[WindowStart(k, maxLength, overlap)..WindowEnd(tokens, k, maxLength, overlap)]
  {
    WindowCount(|tokens|, maxLength, overlap, k);
  }

  /** A slice of `tokens` of the shape the source produces. */
  predicate IsChunkOf(c: seq<int>, tokens: seq<int>, maxLength: int) {
    exists s, e :: (0 <= s <= e <= |tokens| && (maxLength > Margin ==> s < e)
      && e - s <= maxLength - Margin && e - s <= ModelLimit && c == tokens[s..e])
  }

  /** Every chunk is a contiguous slice `tokens[s..e]` of at most
      `maxLength - 10` and at most 1024 tokens, non-empty when
      `maxLength > 10`. */
  lemma ChunksAreSlices(tokens: seq<int>, maxLength: int, overlap: int)
    requires Margin <= maxLength && overlap < maxLength
    ensures forall c :: c in Chunks(tokens, maxLength, overlap) ==> IsChunkOf(c, tokens, maxLength)
  {
    var windows := Windows(tokens, maxLength, overlap);
    AcceptedMembers(windows);
    forall c | c in Chunks(tokens, maxLength, overlap)
      ensures IsChunkOf(c, tokens, maxLength)
    {
      var k :| 0 <= k < |windows| && windows[k] == c;
      WindowSlice(tokens, maxLength, overlap, k);
      var s, e := WindowStart(k, maxLength, overlap), WindowEnd(tokens, k, maxLength, overlap);
      assert c == tokens[s..e];
    }
  }

  /** With `maxLength <= 1034` no window exceeds the model's limit, so the
      chunks are all the windows: one per start, ceil(n / stride) of them. */
  lemma NoWindowRejected(tokens: seq<int>, maxLength: int, overlap: int)
    requires Margin <= maxLength <= ModelLimit + Margin && overlap < maxLength
    ensures Chunks(tokens, maxLength, overlap) == Windows(tokens, maxLength, overlap)
    ensures |Chunks(tokens, maxLength, overlap)| == NumWindows(|tokens|, maxLength - overlap)
  {
    var windows := Windows(tokens, maxLength, overlap);
    forall i | 0 <= i < |windows| ensures |windows[i]| <= ModelLimit {
      WindowSlice(tokens, maxLength, overlap, i);
    }
    AcceptedAll(windows);
  }

  /** Consecutive windows start `maxLength - overlap` tokens apart (824
      with the defaults, not the window width minus the overlap), so window
      k ends `overlap - 10` tokens (190) after window k + 1 starts, unless
      the input ends first; the later window never ends earlier. */
  lemma WindowsOverlap(tokens: seq<int>, maxLength: int, overlap: int, k: nat)
    requires Margin <= maxLength && overlap < maxLength
    requires k + 1 < NumWindows(|tokens|, maxLength - overlap)
    ensures WindowStart(k + 1, maxLength, overlap) - WindowStart(k, maxLength, overlap) == maxLength - overlap
    ensures WindowEnd(tokens, k, maxLength, overlap) - WindowStart(k + 1, maxLength, overlap)
         == Min(overlap - Margin, |tokens| - WindowStart(k + 1, maxLength, overlap))
    ensures WindowEnd(tokens, k, maxLength, overlap) <= WindowEnd(tokens, k + 1, maxLength, overlap)
  {
  }

  /** Some window starts at or before `i` and the next one after it. */
  lemma {:induction false} WindowAround(i: int, maxLength: int, overlap: int, k: nat) returns (w: nat)
    requires maxLength > overlap && WindowStart(k, maxLength, overlap) <= i
    ensures WindowStart(w, maxLength, overlap) <= i < WindowStart(w, maxLength, overlap) + (maxLength - overlap)
    decreases i - WindowStart(k, maxLength, overlap)
  {
    if i < WindowStart(k + 1, maxLength, overlap) {
      w := k;
    } else {
      w := WindowAround(i, maxLength, overlap, k + 1);
    }
  }

  /** With `10 <= overlap` and no window rejected, every token lies in a
      chunk, at its offset from the chunk's start. */
  lemma ChunksCover(tokens: seq<int>, maxLength: int, overlap: int, i: nat)
    requires Margin <= overlap < maxLength <= ModelLimit + Margin
    requires i < |tokens|
    ensures exists k: nat :: (
      && k < |Chunks(tokens, maxLength, overlap)|
      && WindowStart(k, maxLength, overlap) <= i < WindowEnd(tokens, k, maxLength, overlap)
      && i - WindowStart(k, maxLength, overlap) < |Chunks(tokens, maxLength, overlap)[k]|
      && Chunks(tokens, maxLength, overlap)[k][i - WindowStart(k, maxLength, overlap)] == tokens[i])
  {
    var k := WindowAround(i, maxLength, overlap, 0);
    var start := WindowStart(k, maxLength, overlap);
    var end := WindowEnd(tokens, k, maxLength, overlap);
    var chunks := Chunks(tokens, maxLength, overlap);
    assert k < NumWindows(|tokens|, maxLength - overlap) by {
      WindowCount(|tokens|, maxLength, overlap, k);
    }
    assert k < |chunks| && chunks[k] == tokens[start..end] by {
      NoWindowRejected(tokens, maxLength, overlap);
      WindowSlice(tokens, maxLength, overlap, k);
    }
    assert start <= i < end by {
      assert i < start + (maxLength - overlap);
    }
    SliceOffset(tokens, start, end, i);
  }

  /** Position i of `s` sits at offset i - lo of the slice [lo, hi). */
  lemma SliceOffset(s: seq<int>, lo: int, hi: int, i: int)
    requires 0 <= lo <= i < hi <= |s|
    ensures i - lo < |s[lo..hi]| && s[lo..hi][i - lo] == s[i]
  {
  }

  /** With `10 <= overlap` the last window reaches the end of the input. */
  lemma LastWindowReachesEnd(tokens: seq<int>, maxLength: int, overlap: int)
    requires Margin <= overlap < maxLength && |tokens| > 0
    ensures NumWindows(|tokens|, maxLength - overlap) > 0
    ensures WindowEnd(tokens, NumWindows(|tokens|, maxLength - overlap) - 1, maxLength, overlap) == |tokens|
  {
    var count := NumWindows(|tokens|, maxLength - overlap);
    WindowCount(|tokens|, maxLength, overlap, 0);
    WindowCount(|tokens|, maxLength, overlap, count);
    WindowCount(|tokens|, maxLength, overlap, count - 1);
  }

  /** A 1500-token input with the defaults gives two chunks, [0, 1014) and
      [824, 1500): the second starts 1024 - 200 tokens after the first. */
  lemma DefaultScenario(tokens: seq<int>)
    requires |tokens| == 1500
    ensures Chunks(tokens, 1024, 200) == [tokens[..1014], tokens[824..]]
  {
    NoWindowRejected(tokens, 1024, 200);
    assert NumWindows(1500, 824) == 2;
    WindowSlice(tokens, 1024, 200, 0);
    WindowSlice(tokens, 1024, 200, 1);
    var windows := Windows(tokens, 1024, 200);
    assert windows[0] == tokens[..1014];
    assert windows[1] == tokens[824..];
  }

  /** The source keeps visiting starts until one lies past the end, so an
      input of 824 < n <= 1014 tokens, which the first window already
      covers, also yields the window [824, n) inside it. */
  lemma ShortInputTwoChunks(tokens: seq<int>)
    requires |tokens| == 900
    ensures Chunks(tokens, 1024, 200) == [tokens, tokens[824..]]
  {
    NoWindowRejected(tokens, 1024, 200);
    assert NumWindows(900, 824) == 2;
    WindowSlice(tokens, 1024, 200, 0);
    WindowSlice(tokens, 1024, 200, 1);
    var windows := Windows(tokens, 1024, 200);
    assert windows[0] == tokens[..900] == tokens;
    assert windows[1] == tokens[824..];
  }

  /** One past the index of the first window from `k` on that reaches the
      end of the input, or the number of windows when none does. */
  function StopIndex(tokens: seq<int>, maxLength: int, overlap: int, k: nat): (r: nat)
    requires maxLength > overlap
    ensures r <= NumWindows(|tokens|, maxLength - overlap)
    ensures k <= NumWindows(|tokens|, maxLength - overlap) ==> k <= r
    decreases NumWindows(|tokens|, maxLength - overlap) - k
  {
    if k >= NumWindows(|tokens|, maxLength - overlap) then NumWindows(|tokens|, maxLength - overlap)
    else if WindowEnd(tokens, k, maxLength, overlap) == |tokens| then k + 1
    else StopIndex(tokens, maxLength, overlap, k + 1)
  }

  /** The chunks of the windows up to the first that reaches the end. */
  function ChunksToEnd(tokens: seq<int>, maxLength: int, overlap: int): (r: seq<seq<int>>)
    requires maxLength > overlap
    ensures |r| <= NumWindows(|tokens|, maxLength - overlap)
    ensures tokens == [] ==> r == []
    ensures forall c :: c in r ==> |c| <= ModelLimit
  {
    var stop := StopIndex(tokens, maxLength, overlap, 0);
    CollectedIsAccepted(tokens, maxLength, overlap, stop);
    AcceptedMembers(Windows(tokens, maxLength, overlap)[..stop]);
    Collected(tokens, maxLength, overlap, stop)
  }

  /** The first `k` windows are the ones visited by a loop that stops
      after the first window reaching the end of the input. */
  ghost predicate StopsAt(tokens: seq<int>, maxLength: int, overlap: int, k: nat)
    requires maxLength > overlap
  {
    && k <= NumWindows(|tokens|, maxLength - overlap)
    && (forall j :: 0 <= j < k - 1 ==> WindowEnd(tokens, j, maxLength, overlap) < |tokens|)
    && (k == NumWindows(|tokens|, maxLength - overlap) || (k > 0 && WindowEnd(tokens, k - 1, maxLength, overlap) == |tokens|))
  }

  /** The stop index is where such a loop stops. */
  lemma {:induction false} StopIndexStops(tokens: seq<int>, maxLength: int, overlap: int, k: nat)
    requires maxLength > overlap
    requires k <= NumWindows(|tokens|, maxLength - overlap)
    requires forall j :: 0 <= j < k ==> WindowEnd(tokens, j, maxLength, overlap) < |tokens|
    ensures StopsAt(tokens, maxLength, overlap, StopIndex(tokens, maxLength, overlap, k))
    decreases NumWindows(|tokens|, maxLength - overlap) - k
  {
    if k < NumWindows(|tokens|, maxLength - overlap) && WindowEnd(tokens, k, maxLength, overlap) != |tokens| {
      StopIndexStops(tokens, maxLength, overlap, k + 1);
    }
  }

  /** The chunks of the windows visited up to the stop are a prefix of
      the source's chunks. */
  lemma StopPrefix(tokens: seq<int>, maxLength: int, overlap: int, k: nat)
    requires overlap < maxLength
    requires StopsAt(tokens, maxLength, overlap, k)
    ensures Accepted(Windows(tokens, maxLength, overlap)[..k]) <= Chunks(tokens, maxLength, overlap)
  {
    AcceptedPrefix(Windows(tokens, maxLength, overlap), k);
  }

  /** A short input stops after its first window, which is all of it. */
  lemma StopShort(tokens: seq<int>, maxLength: int, overlap: int, k: nat)
    requires Margin <= maxLength && overlap < maxLength
    requires StopsAt(tokens, maxLength, overlap, k)
    requires 0 < |tokens| <= maxLength - Margin && |tokens| <= ModelLimit
    ensures Accepted(Windows(tokens, maxLength, overlap)[..k]) == [tokens]
  {
    var windows := Windows(tokens, maxLength, overlap);
    WindowCount(|tokens|, maxLength, overlap, 0);
    WindowSlice(tokens, maxLength, overlap, 0);
    assert WindowEnd(tokens, 0, maxLength, overlap) == |tokens|;
    assert k == 1;
    assert windows[0] == tokens[0..|tokens|] == tokens;
    assert windows[..1] == [tokens];
  }

  /** Without rejected windows, only the last chunk visited up to the stop
      may reach the end of the input and, when `overlap >= 10`, it does. */
  lemma StopAtEnd(tokens: seq<int>, maxLength: int, overlap: int, k: nat)
    requires Margin <= maxLength <= ModelLimit + Margin && overlap < maxLength
    requires StopsAt(tokens, maxLength, overlap, k)
    ensures var chunks := Accepted(Windows(tokens, maxLength, overlap)[..k]);
      && |chunks| == k
      && (forall j :: 0 <= j < |chunks| - 1 ==> WindowEnd(tokens, j, maxLength, overlap) < |tokens|)
      && (Margin <= overlap && |tokens| > 0 ==>
            chunks != [] && WindowEnd(tokens, |chunks| - 1, maxLength, overlap) == |tokens|)
  {
    var windows := Windows(tokens, maxLength, overlap);
    var prefix := windows[..k];
    assert |prefix| == k;
    forall i | 0 <= i < k ensures |prefix[i]| <= ModelLimit {
      WindowSlice(tokens, maxLength, overlap, i);
      assert prefix[i] == windows[i];
    }
    AcceptedAll(prefix);
    if Margin <= overlap && |tokens| > 0 && k == |windows| {
      LastWindowReachesEnd(tokens, maxLength, overlap);
    }
  }

  /** The corrected chunks are the filtered windows up to the stop. */
  lemma ChunksToEndStop(tokens: seq<int>, maxLength: int, overlap: int) returns (stop: nat)
    requires Margin <= maxLength && overlap < maxLength
    ensures StopsAt(tokens, maxLength, overlap, stop)
    ensures ChunksToEnd(tokens, maxLength, overlap) == Accepted(Windows(tokens, maxLength, overlap)[..stop])
  {
    stop := StopIndex(tokens, maxLength, overlap, 0);
    StopIndexStops(tokens, maxLength, overlap, 0);
    CollectedIsAccepted(tokens, maxLength, overlap, stop);
  }

  /** The corrected chunks are a prefix of the source's chunks. */
  lemma ChunksToEndPrefix(tokens: seq<int>, maxLength: int, overlap: int)
    requires Margin <= maxLength && overlap < maxLength
    ensures ChunksToEnd(tokens, maxLength, overlap) <= Chunks(tokens, maxLength, overlap)
  {
    var stop := ChunksToEndStop(tokens, maxLength, overlap);
    StopPrefix(tokens, maxLength, overlap, stop);
  }

  /** An input of at most `maxLength - 10` tokens is a single corrected
      chunk. */
  lemma ChunksToEndShort(tokens: seq<int>, maxLength: int, overlap: int)
    requires Margin <= maxLength && overlap < maxLength
    requires 0 < |tokens| <= maxLength - Margin && |tokens| <= ModelLimit
    ensures ChunksToEnd(tokens, maxLength, overlap) == [tokens]
  {
    var stop := ChunksToEndStop(tokens, maxLength, overlap);
    StopShort(tokens, maxLength, overlap, stop);
  }

  /** Without rejected windows, only the last corrected chunk may reach the
      end of the input and, when `overlap >= 10`, it does. */
  lemma ChunksToEndAtEnd(tokens: seq<int>, maxLength: int, overlap: int)
    requires Margin <= maxLength <= ModelLimit + Margin && overlap < maxLength
    ensures var chunks := ChunksToEnd(tokens, maxLength, overlap);
      && (forall j :: 0 <= j < |chunks| - 1 ==> WindowEnd(tokens, j, maxLength, overlap) < |tokens|)
      && (Margin <= overlap && |tokens| > 0 ==>
            chunks != [] && WindowEnd(tokens, |chunks| - 1, maxLength, overlap) == |tokens|)
  {
    var stop := ChunksToEndStop(tokens, maxLength, overlap);
    StopAtEnd(tokens, maxLength, overlap, stop);
  }

  /** `chunk_text` as evidently intended: the loop also stops after the
      first window that reaches the end of the input. */
  method ChunkTextToEnd(tokens: seq<int>, maxLength: int, overlap: int) returns (chunks: seq<seq<int>>)
    requires Margin <= maxLength && overlap < maxLength
    ensures chunks == ChunksToEnd(tokens, maxLength, overlap)
  {
    ghost var k: nat := 0;
    chunks := [];
    var start := 0;
    while start < |tokens|
      invariant start == WindowStart(k, maxLength, overlap)
      invariant k <= NumWindows(|tokens|, maxLength - overlap)
      invariant chunks == Collected(tokens, maxLength, overlap, k)
      invariant StopIndex(tokens, maxLength, overlap, k) == StopIndex(tokens, maxLength, overlap, 0)
      decreases |tokens| - start
    {
      var end := Min(start + maxLength - Margin, |tokens|);
      var chunk := PySlice(tokens, start, end);
      assert k < NumWindows(|tokens|, maxLength - overlap) by {
        WindowCount(|tokens|, maxLength, overlap, k);
      }
      ghost var next := Collected(tokens, maxLength, overlap, k + 1);
      assert next == chunks + (if |chunk| <= ModelLimit then [chunk] else []) by {
        CollectedStep(tokens, maxLength, overlap, k);
        assert chunk == Window(tokens, start, maxLength);
      }
      if |chunk| <= ModelLimit {
        chunks := chunks + [chunk];
      }
      assert chunks == next;
      assert end == WindowEnd(tokens, k, maxLength, overlap);
      if end == |tokens| {
        k := k + 1;
        break;
      }
      start := start + maxLength - overlap;
      k := k + 1;
    }
    assert k == StopIndex(tokens, maxLength, overlap, 0) by {
      if start >= |tokens| && |tokens| > 0 {
        WindowCount(|tokens|, maxLength, overlap, k);
      }
    }
  }
}

=== FILE: minmax.dfy ===
/** Integer minimum and maximum, as Python's `min` and `max` on two ints. */
module MinMax {

  function Min(a: int, b: int): (m: int)
    ensures m <= a && m <= b
    ensures m == a || m == b
  {
    if a <= b then a else b
  }

  function Max(a: int, b: int): (m: int)
    ensures a <= m && b <= m
    ensures m == a || m == b
  {
    if a <= b then b else a
  }
}

=== FILE: summarizer.dfy ===
/** `summarize_chunks`: every chunk that is short enough in tokens and long
    enough in words is summarized on its own, the chunk summaries are
    joined with spaces, and the joined text is summarized once more.

    The tokenizer's `decode` and the summarization pipeline are parameters:
    `decode` maps token identifiers to text, and `summarize` maps a request
    to `Some(summary)` or to `None` when the pipeline raises. Generation is
    deterministic (`do_sample=False`), so the pipeline is a function of the
    request. */
module Summarizer {
  import opened Wrappers
  import opened Text
  import Chunker
  import opened MinMax

  /** A chunk of more tokens than this is skipped. */
  const ChunkTokenLimit := 1014
  /** A chunk whose text has fewer words than this is skipped. */
  const MinWords := 3
  /** `min_length` of every chunk summary. */
  const ChunkMinLength := 50
  /** Bounds of `max_length` for a chunk summary. */
  const ChunkMaxLow := 100
  const ChunkMaxHigh := 200
  /** `min_length` of the final summary. */
  const FinalMinLength := 100
  /** Bounds of `max_length` for the final summary. */
  const FinalMaxLow := 100
  const FinalMaxHigh := 400

  /** One call of the summarization pipeline: the text and the bounds on
      the length of the summary it asks for. */
  datatype Request = Request(text: string, maxLength: int, minLength: int)

  /** `min(high, max(low, int(words / 2)))`: half the word count, rounded
      down, kept within `[low, high]`. Above the floor it is at most half
      the words; below the cap it is at least half the words, rounded
      down. */
  function HalfWithin(words: nat, low: int, high: int): (m: int)
    requires low <= high
    ensures low <= m <= high
    ensures m > low ==> 2 * m <= words
    ensures m < high ==> words <= 2 * m + 1
  {
    Min(high, Max(low, words / 2))
  }

  /** The two bounds pin the value down: any `m` in `[low, high]` meeting
      them is `HalfWithin(words, low, high)`. */
  lemma HalfWithinUnique(words: nat, low: int, high: int, m: int)
    requires low < high && low <= m <= high
    requires m > low ==> 2 * m <= words
    requires m < high ==> words <= 2 * m + 1
    ensures m == HalfWithin(words, low, high)
  {
  }

  /** More words never ask for a shorter summary. */
  lemma HalfWithinMonotone(words: nat, more: nat, low: int, high: int)
    requires low <= high && words <= more
    ensures HalfWithin(words, low, high) <= HalfWithin(more, low, high)
  {
  }

  /** The request made for one chunk, or `None` when the chunk is skipped:
      it has more than 1014 tokens, or its decoded text has fewer than
      three words. */
  function ChunkRequest(chunk: seq<int>, decode: seq<int> -> string): (r: Option<Request>)
    ensures r.None? <==> |chunk| > ChunkTokenLimit || WordCount(decode(chunk)) < MinWords
    ensures r.Some? ==>
      && r.value.text == decode(chunk)
      && r.value.minLength == ChunkMinLength
      && r.value.maxLength == HalfWithin(WordCount(decode(chunk)), ChunkMaxLow, ChunkMaxHigh)
  {
    if |chunk| > ChunkTokenLimit then None
    else
      var text := decode(chunk);
      var words := WordCount(text);
      if words < MinWords then None
      else Some(Request(text, HalfWithin(words, ChunkMaxLow, ChunkMaxHigh), ChunkMinLength))
  }

  /** The summary one chunk contributes: none when it is skipped or when
      the pipeline fails on it. */
  function ChunkSummary(chunk: seq<int>, decode: seq<int> -> string, summarize: Request -> Option<string>): (r: Option<string>)
    ensures |chunk| > ChunkTokenLimit || WordCount(decode(chunk)) < MinWords ==> r.None?
    ensures r.Some? ==> summarize(Request(decode(chunk), HalfWithin(WordCount(decode(chunk)), ChunkMaxLow, ChunkMaxHigh), ChunkMinLength)) == r
    ensures ChunkRequest(chunk, decode).Some? ==> r == summarize(ChunkRequest(chunk, decode).value)
  {
    match ChunkRequest(chunk, decode)
    case None => None
    case Some(request) => summarize(request)
  }

  /** The summaries the loop collects from `chunks`, in chunk order. */
  function Summaries(chunks: seq<seq<int>>, decode: seq<int> -> string, summarize: Request -> Option<string>): (r: seq<string>)
    ensures |r| <= |chunks|
  {
    if chunks == [] then []
    else
      var last := ChunkSummary(chunks[|chunks| - 1], decode, summarize);
      Summaries(chunks[..|chunks| - 1], decode, summarize) + (if last.Some? then [last.value] else [])
  }

  /** The loop's step: a chunk appends its summary, if it has one, to
      those of the chunks before it. */
  lemma SummariesStep(chunks: seq<seq<int>>, i: nat, decode: seq<int> -> string, summarize: Request -> Option<string>)
    requires i < |chunks|
    ensures var s := ChunkSummary(chunks[i], decode, summarize);
      Summaries(chunks[..i + 1], decode, summarize)
        == Summaries(chunks[..i], decode, summarize) + (if s.Some? then [s.value] else [])
  {
    assert chunks[..i + 1][..i] == chunks[..i];
  }

  /** Chunks are summarized independently and their summaries kept in
      order: the summaries of `cs + ds` are those of `cs` followed by
      those of `ds`. */
  lemma {:induction false} SummariesAppend(cs: seq<seq<int>>, ds: seq<seq<int>>, decode: seq<int> -> string, summarize: Request -> Option<string>)
    ensures Summaries(cs + ds, decode, summarize) == Summaries(cs, decode, summarize) + Summaries(ds, decode, summarize)
    decreases |ds|
  {
    if ds == [] {
      assert cs + ds == cs;
    } else {
      var init := ds[..|ds| - 1];
      assert (cs + ds)[..|cs + ds| - 1] == cs + init;
      SummariesAppend(cs, init, decode, summarize);
    }
  }

  /** A chunk that yields no summary (skipped, or the pipeline failed on
      it) is dropped and changes nothing else. */
  lemma DroppedChunk(cs: seq<seq<int>>, chunk: seq<int>, ds: seq<seq<int>>, decode: seq<int> -> string, summarize: Request -> Option<string>)
    requires ChunkSummary(chunk, decode, summarize).None?
    ensures Summaries(cs + [chunk] + ds, decode, summarize) == Summaries(cs + ds, decode, summarize)
  {
    SummariesAppend(cs + [chunk], ds, decode, summarize);
    SummariesAppend(cs, [chunk], decode, summarize);
    SummariesAppend(cs, ds, decode, summarize);
    assert [chunk][..0] == [];
  }

  /** A chunk that yields a summary contributes exactly that summary, in
      its place. */
  lemma KeptChunk(cs: seq<seq<int>>, chunk: seq<int>, ds: seq<seq<int>>, decode: seq<int> -> string, summarize: Request -> Option<string>)
    requires ChunkSummary(chunk, decode, summarize).Some?
    ensures Summaries(cs + [chunk] + ds, decode, summarize)
      == Summaries(cs, decode, summarize) + [ChunkSummary(chunk, decode, summarize).value] + Summaries(ds, decode, summarize)
  {
    SummariesAppend(cs + [chunk], ds, decode, summarize);
    SummariesAppend(cs, [chunk], decode, summarize);
    assert [chunk][..0] == [];
  }

  /** Dropping the last chunk keeps every chunk yielding a summary. */
  lemma AllSomeInit(chunks: seq<seq<int>>, n: nat, decode: seq<int> -> string, summarize: Request -> Option<string>)
    requires n <= |chunks|
    requires forall i :: 0 <= i < |chunks| ==> ChunkSummary(chunks[i], decode, summarize).Some?
    ensures forall i :: 0 <= i < n ==> ChunkSummary(chunks[..n][i], decode, summarize).Some?
  {
    assert forall i :: 0 <= i < n ==> chunks[..n][i] == chunks[i];
  }

  /** When every chunk yields a summary, there is one summary per chunk. */
  lemma {:induction false} AllSummarizedLength(chunks: seq<seq<int>>, decode: seq<int> -> string, summarize: Request -> Option<string>)
    requires forall i :: 0 <= i < |chunks| ==> ChunkSummary(chunks[i], decode, summarize).Some?
    ensures |Summaries(chunks, decode, summarize)| == |chunks|
  {
    if chunks != [] {
      var n: nat := |chunks| - 1;
      AllSomeInit(chunks, n, decode, summarize);
      AllSummarizedLength(chunks[..n], decode, summarize);
    }
  }

  /** When every chunk yields a summary, summary i is that of chunk i. */
  lemma {:induction false} SummaryAt(chunks: seq<seq<int>>, i: nat, decode: seq<int> -> string, summarize: Request -> Option<string>)
    requires forall i :: 0 <= i < |chunks| ==> ChunkSummary(chunks[i], decode, summarize).Some?
    requires i < |chunks|
    ensures i < |Summaries(chunks, decode, summarize)|
    ensures Summaries(chunks, decode, summarize)[i] == ChunkSummary(chunks[i], decode, summarize).value
  {
    var n: nat := |chunks| - 1;
    var init := chunks[..n];
    var last := ChunkSummary(chunks[n], decode, summarize);
    AllSomeInit(chunks, n, decode, summarize);
    AllSummarizedLength(init, decode, summarize);
    AllSummarizedLength(chunks, decode, summarize);
    assert Summaries(chunks, decode, summarize) == Summaries(init, decode, summarize) + [last.value];
    if i < n {
      SummaryAt(init, i, decode, summarize);
      assert init[i] == chunks[i];
    }
  }

  /** A chunk of more than 1014 tokens, or of fewer than three words, is
      never sent to the pipeline and contributes nothing. */
  lemma SkippedChunkContributesNothing(chunk: seq<int>, decode: seq<int> -> string, summarize: Request -> Option<string>)
    requires |chunk| > ChunkTokenLimit || WordCount(decode(chunk)) < MinWords
    ensures Summaries([chunk], decode, summarize) == []
  {
    assert [chunk][..0] == [];
  }

  /** The request for the final summary of `combined`. */
  function FinalRequest(combined: string): (r: Request)
    ensures r.text == combined && r.minLength == FinalMinLength
    ensures FinalMaxLow <= r.maxLength <= FinalMaxHigh
    ensures r.maxLength > FinalMaxLow ==> 2 * r.maxLength <= WordCount(combined)
    ensures r.maxLength < FinalMaxHigh ==> WordCount(combined) <= 2 * r.maxLength + 1
  {
    Request(combined, HalfWithin(WordCount(combined), FinalMaxLow, FinalMaxHigh), FinalMinLength)
  }

  /** What `summarize_chunks` returns: the pipeline's summary of the
      space-joined chunk summaries, or the joined text itself when that
      call fails. */
  function FinalSummary(chunks: seq<seq<int>>, decode: seq<int> -> string, summarize: Request -> Option<string>): (r: string)
    ensures var combined := Join(Summaries(chunks, decode, summarize));
      summarize(FinalRequest(combined)) == Some(r) || (summarize(FinalRequest(combined)).None? && r == combined)
  {
    var combined := Join(Summaries(chunks, decode, summarize));
    match summarize(FinalRequest(combined))
    case Some(summary) => summary
    case None => combined
  }

  /** `summarize_chunks(chunks)`. */
  method SummarizeChunks(chunks: seq<seq<int>>, decode: seq<int> -> string, summarize: Request -> Option<string>)
    returns (finalSummary: string)
    ensures finalSummary == FinalSummary(chunks, decode, summarize)
  {
    var summaries: seq<string> := [];
    for i := 0 to |chunks|
      invariant summaries == Summaries(chunks[..i], decode, summarize)
    {
      SummariesStep(chunks, i, decode, summarize);
      var chunk := chunks[i];
      if |chunk| > ChunkTokenLimit {
        continue;
      }
      var chunkText := decode(chunk);
      var inputLength := WordCount(chunkText);
      if inputLength < MinWords {
        continue;
      }
      var maxLength := HalfWithin(inputLength, ChunkMaxLow, ChunkMaxHigh);
      var summary := summarize(Request(chunkText, maxLength, ChunkMinLength));
      if summary.Some? {
        summaries := summaries + [summary.value];
      }
    }
    assert chunks[..|chunks|] == chunks;
    var combinedSummary := Join(summaries);
    var inputLength := WordCount(combinedSummary);
    var maxLength := HalfWithin(inputLength, FinalMaxLow, FinalMaxHigh);
    var result := summarize(Request(combinedSummary, maxLength, FinalMinLength));
    if result.Some? {
      finalSummary := result.value;
    } else {
      finalSummary := combinedSummary;
    }
  }

  /** The final request carries exactly the words of all chunk summaries,
      asks for at least 100 tokens, and for half those words, kept within
      [100, 400], at most. */
  lemma FinalRequestWords(chunks: seq<seq<int>>, decode: seq<int> -> string, summarize: Request -> Option<string>)
    ensures var summaries := Summaries(chunks, decode, summarize);
      var request := FinalRequest(Join(summaries));
      && request.text == Join(summaries)
      && WordCount(request.text) == TotalWords(summaries)
      && request.minLength == FinalMinLength
      && FinalMaxLow <= request.maxLength <= FinalMaxHigh
      && request.maxLength == HalfWithin(TotalWords(summaries), FinalMaxLow, FinalMaxHigh)
  {
    WordCountJoin(Summaries(chunks, decode, summarize));
  }

  /** When the final call fails, the result is the chunk summaries joined
      with spaces: exactly their words, in order. */
  lemma FallbackKeepsSummaries(chunks: seq<seq<int>>, decode: seq<int> -> string, summarize: Request -> Option<string>)
    requires summarize(FinalRequest(Join(Summaries(chunks, decode, summarize)))).None?
    ensures FinalSummary(chunks, decode, summarize) == Join(Summaries(chunks, decode, summarize))
    ensures WordCount(FinalSummary(chunks, decode, summarize)) == TotalWords(Summaries(chunks, decode, summarize))
  {
    WordCountJoin(Summaries(chunks, decode, summarize));
  }

  /** Chunks that all yield no summary leave nothing to combine. */
  lemma {:induction false} NoSummaries(chunks: seq<seq<int>>, decode: seq<int> -> string, summarize: Request -> Option<string>)
    requires forall i :: 0 <= i < |chunks| ==> ChunkSummary(chunks[i], decode, summarize).None?
    ensures Summaries(chunks, decode, summarize) == []
  {
    if chunks != [] {
      var init := chunks[..|chunks| - 1];
      assert forall i :: 0 <= i < |init| ==> init[i] == chunks[i];
      NoSummaries(init, decode, summarize);
    }
  }

  /** When no chunk yields a summary, the pipeline is still called, on the
      empty text with `max_length == min_length == 100`; the result is
      what it returns, or the empty text when it fails. */
  lemma NothingToCombine(chunks: seq<seq<int>>, decode: seq<int> -> string, summarize: Request -> Option<string>)
    requires forall i :: 0 <= i < |chunks| ==> ChunkSummary(chunks[i], decode, summarize).None?
    ensures Summaries(chunks, decode, summarize) == []
    ensures FinalRequest(Join(Summaries(chunks, decode, summarize))) == Request("", 100, 100)
    ensures var empty := summarize(Request("", 100, 100));
      FinalSummary(chunks, decode, summarize) == (if empty.Some? then empty.value else "")
  {
    NoSummaries(chunks, decode, summarize);
  }

  /** The chunks `chunk_text` makes with `max_length <= 1024` are never
      skipped for their length: each has at most `max_length - 10 <= 1014`
      tokens. The same holds for the chunker that stops at the end of the
      input, whose chunks are a prefix of these. */
  lemma ChunkerOutputFitsLimit(tokens: seq<int>, maxLength: int, overlap: int)
    requires Chunker.Margin <= maxLength <= 1024 && overlap < maxLength
    ensures forall c :: c in Chunker.Chunks(tokens, maxLength, overlap) ==> |c| <= ChunkTokenLimit
    ensures forall c :: c in Chunker.ChunksToEnd(tokens, maxLength, overlap) ==> |c| <= ChunkTokenLimit
  {
    Chunker.ChunksAreSlices(tokens, maxLength, overlap);
    Chunker.ChunksToEndPrefix(tokens, maxLength, overlap);
  }
}

=== FILE: text.dfy ===
/** The meaning of the Python string built-ins the pipeline relies on:
    `str.split()` with no separator (only its length is used), `" ".join`
    and `str.lower()` on the characters a file extension is compared with. */
module Text {

  /** The characters `str.split()` with no separator treats as whitespace
      (those for which `str.isspace()` holds). */
  predicate IsSpace(c: char)
    ensures c as int < 0x80 ==> (IsSpace(c) <==> c == ' ' || '\t' <= c <= '\r' || 0x1C <= c as int <= 0x1F)
    ensures 'a' <= c <= 'z' || 'A' <= c <= 'Z' || '0' <= c <= '9' || c == '.' ==> !IsSpace(c)
  {
    var n := c as int;
    || 0x09 <= n <= 0x0D
    || 0x1C <= n <= 0x20
    || n == 0x85 || n == 0xA0 || n == 0x1680
    || 0x2000 <= n <= 0x200A
    || n == 0x2028 || n == 0x2029 || n == 0x202F || n == 0x205F || n == 0x3000
  }

  /** A word of `s` begins at `i`: a non-whitespace character that is the
      first of `s` or follows whitespace. Every maximal run of
      non-whitespace has exactly one such position. */
  predicate StartsWord(s: string, i: int)
    requires 0 <= i < |s|
  {
    !IsSpace(s[i]) && (i == 0 || IsSpace(s[i - 1]))
  }

  /** `len(s.split())`: the number of maximal runs of non-whitespace. */
  function WordCount(s: string): (n: nat)
    ensures n <= |s|
  {
    if s == [] then 0
    else WordCount(s[..|s| - 1]) + (if StartsWord(s, |s| - 1) then 1 else 0)
  }

  /** A string has no words exactly when it is all whitespace (or empty). */
  lemma {:induction false} WordCountZero(s: string)
    ensures WordCount(s) == 0 <==> forall i :: 0 <= i < |s| ==> IsSpace(s[i])
  {
    if s != [] {
      var p := s[..|s| - 1];
      WordCountZero(p);
      assert forall i :: 0 <= i < |p| ==> p[i] == s[i];
      if WordCount(s) == 0 {
        assert WordCount(p) == 0 && !StartsWord(s, |s| - 1);
        if |s| > 1 {
          assert IsSpace(s[|s| - 2]);
        }
      }
    }
  }

  /** Words on either side of a single space are counted separately:
      the space neither joins nor splits a word. */
  lemma WordCountAroundSpace(a: string, b: string)
    ensures WordCount(a + " " + b) == WordCount(a) + WordCount(b)
  {
    WordCountAroundSpaces(a, " ", b);
  }

  /** A non-empty run of non-whitespace is one word, however long. */
  lemma {:induction false} WordCountOneWord(w: string)
    requires w != [] && forall i :: 0 <= i < |w| ==> !IsSpace(w[i])
    ensures WordCount(w) == 1
  {
    var p := w[..|w| - 1];
    if p == [] {
      assert StartsWord(w, 0);
    } else {
      assert forall i :: 0 <= i < |p| ==> p[i] == w[i];
      WordCountOneWord(p);
      assert !StartsWord(w, |w| - 1);
    }
  }

  /** Trailing whitespace adds no word. */
  lemma {:induction false} WordCountTrailingSpace(a: string, ws: string)
    requires forall i :: 0 <= i < |ws| ==> IsSpace(ws[i])
    ensures WordCount(a + ws) == WordCount(a)
  {
    if ws == [] {
      assert a + ws == a;
    } else {
      var p := ws[..|ws| - 1];
      var s := a + ws;
      assert s[..|s| - 1] == a + p;
      WordCountTrailingSpace(a, p);
      assert !StartsWord(s, |s| - 1);
    }
  }

  /** Any non-empty run of whitespace separates like a single space: the
      words of `a + ws + b` are those of `a` followed by those of `b`. */
  lemma {:induction false} WordCountAroundSpaces(a: string, ws: string, b: string)
    requires ws != [] && forall i :: 0 <= i < |ws| ==> IsSpace(ws[i])
    ensures WordCount(a + ws + b) == WordCount(a) + WordCount(b)
  {
    var s := a + ws + b;
    if b == [] {
      assert s == a + ws;
      WordCountTrailingSpace(a, ws);
    } else {
      var b' := b[..|b| - 1];
      assert s[..|s| - 1] == a + ws + b';
      WordCountAroundSpaces(a, ws, b');
      assert s[|s| - 1] == b[|b| - 1];
      assert s[|s| - 2] == if |b| > 1 then b[|b| - 2] else ws[|ws| - 1];
      assert StartsWord(s, |s| - 1) == StartsWord(b, |b| - 1);
    }
  }

  /** The sum of the lengths of `parts`. */
  function TotalLength(parts: seq<string>): nat {
    if parts == [] then 0 else TotalLength(parts[..|parts| - 1]) + |parts[|parts| - 1]|
  }

  /** The sum of the word counts of `parts`. */
  function TotalWords(parts: seq<string>): nat {
    if parts == [] then 0 else TotalWords(parts[..|parts| - 1]) + WordCount(parts[|parts| - 1])
  }

  /** `" ".join(parts)`: the parts in order with one space between neighbours. */
  function Join(parts: seq<string>): (r: string)
    ensures |r| == TotalLength(parts) + (if parts == [] then 0 else |parts| - 1)
  {
    if |parts| == 0 then ""
    else if |parts| == 1 then parts[0]
    else Join(parts[..|parts| - 1]) + " " + parts[|parts| - 1]
  }

  /** Joining with spaces creates no word and merges none: the words of the
      joined text are the words of the parts. */
  lemma {:induction false} WordCountJoin(parts: seq<string>)
    ensures WordCount(Join(parts)) == TotalWords(parts)
  {
    if |parts| == 1 {
      assert parts[..0] == [];
    } else if |parts| > 1 {
      var init := parts[..|parts| - 1];
      WordCountJoin(init);
      WordCountAroundSpace(Join(init), parts[|parts| - 1]);
    }
  }

  /** `c.lower()` on ASCII letters; every other character is kept. */
  function LowerChar(c: char): char {
    if 'A' <= c <= 'Z' then (c as int - 'A' as int + 'a' as int) as char else c
  }

  /** `s.lower()` restricted to ASCII case mapping. */
  function AsciiLower(s: string): (r: string)
    ensures |r| == |s|
    ensures forall i :: 0 <= i < |r| ==> !('A' <= r[i] <= 'Z')
    ensures forall i :: 0 <= i < |s| && !('A' <= s[i] <= 'Z') ==> r[i] == s[i]
    ensures forall i :: 0 <= i < |s| && 'A' <= s[i] <= 'Z' ==> r[i] as int == s[i] as int + 32
  {
    seq(|s|, i requires 0 <= i < |s| => LowerChar(s[i]))
  }
}

=== FILE: uploads.dfy ===
/** The upload route's file-type check: a file is accepted by the extension
    after its last dot, compared in lower case. */
module Uploads {
  import opened Wrappers
  import opened Text

  /** The extensions an upload may carry, in lower case. */
  const AllowedExtensions: set<string> := {"pdf", "docx", "txt"}

  /** `s.rsplit('.', 1)` as a pair (head, tail) when `s` holds a dot: the
      tail is what follows the last dot. */
  function RSplitDot(s: string): (r: Option<(string, string)>)
    ensures r.None? <==> '.' !in s
    ensures r.Some? ==> s == r.value.0 + "." + r.value.1 && '.' !in r.value.1
  {
    if s == [] then None
    else if s[|s| - 1] == '.' then Some((s[..|s| - 1], ""))
    else
      assert s == s[..|s| - 1] + [s[|s| - 1]];
      match RSplitDot(s[..|s| - 1])
      case None => None
      case Some((head, tail)) => Some((head, tail + [s[|s| - 1]]))
  }

  /** The split at the last dot is the only one whose tail is dot-free. */
  lemma {:induction false} RSplitDotUnique(head: string, tail: string)
    requires '.' !in tail
    ensures RSplitDot(head + "." + tail) == Some((head, tail))
  {
    var s := head + "." + tail;
    if tail == [] {
      assert s[..|s| - 1] == head;
    } else {
      var t := tail[..|tail| - 1];
      assert s[..|s| - 1] == head + "." + t;
      assert '.' !in t by {
        assert forall i :: 0 <= i < |t| ==> t[i] == tail[i];
      }
      RSplitDotUnique(head, t);
      assert t + [tail[|tail| - 1]] == tail;
    }
  }

  /** `allowed_file`: the name holds a dot and the text after its last dot,
      lower-cased, is an allowed extension. */
  function AllowedFile(filename: string): (r: bool)
    ensures r ==> '.' in filename
  {
    match RSplitDot(filename)
    case None => false
    case Some((_, extension)) => AsciiLower(extension) in AllowedExtensions
  }

  /** Every name with a dot splits as stem + "." + extension with a dot-free
      extension, and is accepted exactly when that extension is allowed. */
  lemma AllowedFileIff(stem: string, extension: string)
    requires '.' !in extension
    ensures AllowedFile(stem + "." + extension) <==> AsciiLower(extension) in AllowedExtensions
  {
    RSplitDotUnique(stem, extension);
  }

  /** Case is ignored: `x.PDF` is a PDF upload. */
  lemma UpperCaseAccepted()
    ensures AllowedFile("x.PDF")
  {
    assert "x" + "." + "PDF" == "x.PDF";
    AllowedFileIff("x", "PDF");
    assert AsciiLower("PDF") == "pdf";
  }

  /** Only the last extension matters: `a.tar.txt` is a text upload. */
  lemma LastExtensionAccepted()
    ensures AllowedFile("a.tar.txt")
  {
    assert "a.tar" + "." + "txt" == "a.tar.txt";
    AllowedFileIff("a.tar", "txt");
    assert AsciiLower("txt") == "txt";
  }

  /** A name without a dot, one ending in a dot, or one whose last
      extension is not allowed is refused. */
  lemma RejectedExamples()
    ensures !AllowedFile("pdf")
    ensures !AllowedFile("file.")
    ensures !AllowedFile("notes.txt.exe")
  {
    assert !AllowedFile("file.") by {
      assert "file" + "." + "" == "file.";
      AllowedFileIff("file", "");
    }
    assert !AllowedFile("notes.txt.exe") by {
      assert "notes.txt" + "." + "exe" == "notes.txt.exe";
      AllowedFileIff("notes.txt", "exe");
      assert AsciiLower("exe") == "exe";
    }
  }
}

=== FILE: wrappers.dfy ===
/** The optional value used for "no result": a missing dot, a skipped chunk,
    a summariser call that raised. */
module Wrappers {

  datatype Option<+T> = None | Some(value: T)
}
